=== FILE: README.md ===
# DefaultHttpClient: signed and encrypted exchange, modelled in Dafny

This project models the protocol core of `DefaultHttpClient` in the BRZ Java client. The typed
GET and the POST carry a command. The command is serialised to JSON, encrypted, and encoded as
URL-safe Base64. Such a request is signed over the text that carries the ciphertext, together
with a nonce. The bare `get(url, returnType)` sends the URL as given, with no command and no
signature. Every response, on all three paths, goes through a fail-closed acceptance pipeline
with these steps, in order:

1. The HTTP status must be 200 or 204.
2. The `X-Signature` header must be present and not blank. Then the same holds for `X-Nonce`.
3. The body is read and its signature is verified.
4. Only a verified body is parsed into a `ResponseBody {code, message, ct}`.
5. The business `fail()` flag is checked. Only then is `ct` decrypted and read as the result.

The collaborators are fields of an injected `Env` record. They are CipherHelper (encrypt,
decrypt, sign, verify), JsonHelper, Commons Base64, the UTF-8 conversions,
`ResponseBody.fail()` and the whitespace set behind `StringUtils.isBlank`. Nothing is assumed
about them beyond their types. The transport is a function parameter `send: Request -> Response`.
The nonce is a plain parameter. Requests and responses are immutable values. Each exception the
code raises in the steps above is a constructor of `Protocol.Error`. Exceptions of the transport
are not modelled; see "Left out".

Modules, in dependency order: `Outcomes` (Option/Result), `Text` (blankness, header-name
comparison), `Http` (messages, first-header lookup), `Protocol` (header names, records, errors),
`Collaborators`, `ResponsePipeline`, `RequestBuilder`, `Client` (public operations),
`ExchangeProperties` (cross-call lemmas), and `Counterparty`. `Counterparty` holds reference
definitions of what the receiving end reads, plus lemmas that connect the envelopes to them. Its
query reader follows section 3.4 of RFC 3986: the query runs from the first `?` to the first `#`.

Two asymmetries in the code are modelled as written:

- The typed GET decrypts the raw UTF-8 bytes of `ct`. The bare GET Base64-decodes `ct` first.
  `ExchangeProperties.GetPathsDecodeCtDifferently` exhibits an input on which the two differ.
- The signed GET sends no `X-Nonce`. Because of this, `Counterparty.GetNeverVerifiableByPeer`
  shows that a receiver can never check its signature.

Further behaviour of the code that the model keeps:

- POST never decrypts `ct`. It stops after the `fail()` check (lines 126-129).
- A response without an entity fails with `MissingEntity` after the header checks. This is the
  point where line 162 reads the entity. The Apache client the code sends with hands a 204 reply
  no entity, so there such a reply never gets past this step; the model's `send` is not held to
  that (see "Left out").
- On the typed GET, a verified body without `ct` fails with `MissingCt`: this is the
  NullPointerException at line 86. For the bare GET, see the `Client.HandleBareGet` line under
  "Left out".

Seven helpers carry no contract of their own, because the members above state what they do:

- `ResponsePipeline.IsSuccess` is `isSuccess` (lines 132-134).
- `ResponsePipeline.VerifySignature` is `verifySignature` (lines 174-177).
- `RequestBuilder.Encrypt` is `encrypt` (lines 179-183).
- `RequestBuilder.Sign` is `sign` (lines 185-188).
- `RequestBuilder.QueryString` is the GET query string `ct=<ciphertext>` (line 95).
- `RequestBuilder.PostBody` is the POST body, the JSON of the map from `ct` to the ciphertext (line 112).
- `ResponsePipeline.BodyText` is the entity read as UTF-8 text (line 162).

## Model

| member | source | states |
|---|---|---|
| `Http.FirstHeader` | src/main/java/com/maihaoche/brz/network/DefaultHttpClient.java:137-146 | the header read is the value of the first header with that name (ignoring ASCII case); none is read exactly when no header has that name |
| `Http.FirstHeaderIgnoresLater` | src/main/java/com/maihaoche/brz/network/DefaultHttpClient.java:137-146 | headers appended after the first one with a name never change what is read for it |
| `ResponsePipeline.AnalyzeHeader` | src/main/java/com/maihaoche/brz/network/DefaultHttpClient.java:136-156 | a missing X-Signature gives MissingSignature and a blank one BlankSignature, whatever X-Nonce holds; once the signature is good, an absent or blank X-Nonce gives MissingNonce; success holds exactly when both are present and not blank, and returns exactly the two values read |
| `ResponsePipeline.AnalyzeBody` | src/main/java/com/maihaoche/brz/network/DefaultHttpClient.java:158-177 | a status other than 200/204 gives BadStatus(status); then header errors propagate, then a missing entity, then VerifyFailed when verify(utf8(body), utf8(nonce), base64decode(signature)) fails; a verified body is parsed, its parse is returned and a failed parse gives MalformedBody; a parsed body was always verified and is the parse of exactly the verified text |
| `ExchangeProperties.BadStatusFailsEveryPath` | src/main/java/com/maihaoche/brz/network/DefaultHttpClient.java:132-134 | a status other than 200 or 204 ends the bare GET, the typed GET and the POST with BadStatus carrying that status |
| `ExchangeProperties.BadStatusIgnoresHeadersAndBody` | src/main/java/com/maihaoche/brz/network/DefaultHttpClient.java:160-170 | under a bad status the outcome is the same for any headers and any entity |
| `ExchangeProperties.SignatureErrorComesFirst` | src/main/java/com/maihaoche/brz/network/DefaultHttpClient.java:137-144 | a missing or blank X-Signature is the error reported, whatever X-Nonce and the entity hold |
| `ExchangeProperties.LaterHeadersIgnored` | src/main/java/com/maihaoche/brz/network/DefaultHttpClient.java:136-156 | repeating X-Signature or X-Nonce after their first occurrence changes neither the header analysis nor the body analysis |
| `ExchangeProperties.UnverifiedBodyNeverParsed` | src/main/java/com/maihaoche/brz/network/DefaultHttpClient.java:162-168 | unless status, headers, entity and signature all pass, the result fails with something other than MalformedBody and is the same for every body parser: no parse happens |
| `ExchangeProperties.BusinessFailureNeverDecrypts` | src/main/java/com/maihaoche/brz/network/DefaultHttpClient.java:64-129 | a verified body reporting fail() ends all three public paths with BusinessFail(code, message) (the checks at lines 64-66, 83-85 and 127-129), and on all three the outcome is the same for every decryptor and result parser |
| `ExchangeProperties.SuccessMeansVerified` | src/main/java/com/maihaoche/brz/network/DefaultHttpClient.java:63-88 | a value returned by any public path comes from a verified body without fail(); for the bare GET it is the decryption of base64decode(ct), for the typed GET of utf8(ct) |
| `ExchangeProperties.NoTokenOverloadSendsNoToken` | src/main/java/com/maihaoche/brz/network/DefaultHttpClient.java:76-78 | the typed GET without a token argument sends no X-Access-Token |
| `ExchangeProperties.GetPathsDecodeCtDifferently` | src/main/java/com/maihaoche/brz/network/DefaultHttpClient.java:68-86 | there are collaborators and a response for which the bare GET returns a value while the typed GET fails to decrypt the same ct |
| `Client.DecodeResult` | src/main/java/com/maihaoche/brz/network/DefaultHttpClient.java:69-73 | a failed decryption gives DecryptFailed; a plaintext that decrypts is read as JSON, its reading is the result and a failed reading gives MalformedResult |
| `Client.AcceptBody` | src/main/java/com/maihaoche/brz/network/DefaultHttpClient.java:82-85 | pipeline errors pass through unchanged; a body reporting fail() becomes BusinessFail with its code and message; a verified body without fail() is accepted as it is |
| `Client.HandleBareGet` | src/main/java/com/maihaoche/brz/network/DefaultHttpClient.java:63-73 | errors before and at the fail() check are reported as they are; a body without ct gives MissingCt; otherwise the result is the decryption of the Base64 decoding of ct |
| `Client.HandleTypedGet` | src/main/java/com/maihaoche/brz/network/DefaultHttpClient.java:81-88 | errors before and at the fail() check are reported as they are; a body without ct gives MissingCt; otherwise the result is the decryption of the UTF-8 bytes of ct, with no Base64 decoding |
| `Client.HandlePost` | src/main/java/com/maihaoche/brz/network/DefaultHttpClient.java:124-129 | POST succeeds exactly when the body is verified and does not report fail(), and otherwise reports the same error |
| `Client.GetBare` | src/main/java/com/maihaoche/brz/network/DefaultHttpClient.java:58-74 | for the reply to the bare request: a bad status is BadStatus; header, verification, parse and business errors are reported as they are; a body without ct gives MissingCt; otherwise the result is the decryption of base64decode(ct) read as JSON |
| `Client.GetTyped` | src/main/java/com/maihaoche/brz/network/DefaultHttpClient.java:80-89 | for the reply to the signed GET: a bad status is BadStatus; header, verification, parse and business errors are reported as they are; a body without ct gives MissingCt; otherwise the result is the decryption of utf8(ct) read as JSON |
| `Client.GetTypedNoToken` | src/main/java/com/maihaoche/brz/network/DefaultHttpClient.java:76-78 | the typed GET with the empty access token: the same errors and the same result, decrypt(utf8(ct)) read as JSON |
| `Client.DoPost` | src/main/java/com/maihaoche/brz/network/DefaultHttpClient.java:108-130 | for the reply to the POST: a bad status is BadStatus; POST succeeds exactly when the reply is verified and does not report fail(), and otherwise reports that error |
| `RequestBuilder.BareGetRequest` | src/main/java/com/maihaoche/brz/network/DefaultHttpClient.java:59-61 | the bare GET goes to the URL as given, with no header of any name and no entity |
| `RequestBuilder.GetRequest` | src/main/java/com/maihaoche/brz/network/DefaultHttpClient.java:91-102 | the URL is url + "?" + "ct=" + base64url(encrypt(utf8(toJson(command)))); X-Signature is base64url(sign(utf8(q), utf8(nonce))) over exactly the query string q after that "?"; no X-Nonce; X-Access-Token is present exactly when the token is not blank, and then equals it; no other header is sent |
| `RequestBuilder.PostRequest` | src/main/java/com/maihaoche/brz/network/DefaultHttpClient.java:108-121 | the entity is the UTF-8 of the JSON text {"ct": ciphertext}; X-Signature signs exactly that text with the nonce; X-Nonce is that nonce; X-Access-Token is always the given token; Content-Type is application/json; these four are the only headers |
| `Counterparty.GetUrlCarriesCiphertext` | src/main/java/com/maihaoche/brz/network/DefaultHttpClient.java:92-99 | for a URL with no query and no fragment of its own, and an encoder that writes the URL-safe Base64 alphabet, a receiver reading the query (after the first "?", up to any "#") recovers exactly the signed query string and from it the ciphertext |
| `Counterparty.UrlWithQueryHidesSignedText` | src/main/java/com/maihaoche/brz/network/DefaultHttpClient.java:98-98 | when the caller's URL already has a query and no fragment, the query a receiver reads is the caller's query, then "?", then the signed query string, so it is not the signed query string |
| `Counterparty.UrlWithFragmentDropsCiphertext` | src/main/java/com/maihaoche/brz/network/DefaultHttpClient.java:98-98 | when the caller's URL has a fragment, "?ct=..." is appended inside the fragment, and the query a receiver reads is the caller's own, whatever the command |
| `Counterparty.SignedReplyCompletesExchange` | src/main/java/com/maihaoche/brz/network/DefaultHttpClient.java:58-130 | when the transport answers every request with a correctly signed reply whose body has a ct and no fail(), the bare GET returns the decryption of base64decode(ct), the typed GET that of utf8(ct), and the POST succeeds |
| `Counterparty.DecodeResultRecoversSentResult` | src/main/java/com/maihaoche/brz/network/DefaultHttpClient.java:69-73 | when decrypt undoes the counterparty's encryption, UTF-8 decoding undoes encoding and fromJson reads what the counterparty's toJson wrote, decoding the ciphertext of any value gives back that value |
| `Counterparty.PostVerifiableByPeer` | src/main/java/com/maihaoche/brz/network/DefaultHttpClient.java:112-121 | with matching keys and a Base64 decoder that reads the URL-safe alphabet, a receiver accepts the POST signature over exactly the entity bytes it receives |
| `Counterparty.GetNeverVerifiableByPeer` | src/main/java/com/maihaoche/brz/network/DefaultHttpClient.java:94-102 | no signed GET and no bare GET can pass a receiver's signature check, since neither carries X-Nonce |
| `Counterparty.AcceptsCorrectlySignedResponse` | src/main/java/com/maihaoche/brz/network/DefaultHttpClient.java:158-168 | a 200 response signed by the counterparty over its body and a non-blank nonce is accepted: the pipeline returns the parse of the body, and the typed GET returns the decryption of its ct |
| `Counterparty.RejectsTamperedBody` | src/main/java/com/maihaoche/brz/network/DefaultHttpClient.java:162-168 | when a signature verifies only for the content it was made over, a body other than the signed one gives VerifyFailed on every path |

## Left out

- HTTP client creation and `execute` are left out. The transport is the parameter `send`.
- URL validity is not modelled. Lines 59, 98 and 115 throw IllegalArgumentException for a string that `java.net.URI` rejects; the model builds a request for any string.
- Reading the entity stream is not modelled. The entity is a byte sequence, and the body text is its UTF-8 decoding.
- `download` and its Content-Disposition URL-decoding are not part of this model. They are transport plumbing.
- The internals of CipherHelper, JsonHelper and Commons Base64 are not part of this model. They are opaque function values.
- Encryption, signing, verification, `toJson`, the Base64 encoder and decoder, and the UTF-8 conversions are total functions. Any exception they might raise is not modelled.
- Exceptions raised by the transport are not modelled. `send` always returns a response.
- The transport is any function: it may return a 204 reply with an entity, which the Apache client does not do. Such a reply is then handled like a 200 reply with the same headers and entity.
- Decryption and `fromJson` may fail. They return `Option`, and their failures become DecryptFailed, MalformedBody and MalformedResult.
- `NonceUtils.nonce()` randomness is not modelled. The nonce is a parameter.
- Key loading from Config and the default constructor are not modelled. They are process-wide configuration, and the `Env` record is injected instead.
- Exception message text and locale are not modelled. Errors are constructors of `Protocol.Error`.
- The whitespace set of `StringUtils.isBlank` is a field of `Env`. Its exact contents are not modelled.
- A header whose value is `null` is not modelled. Header values are strings.
- Client.HandleBareGet: a body without `ct` gives MissingCt. The source instead hands a `null` array to `decrypt` (line 68), and what `decrypt` does with it is not part of this model.
- Client.GetBare: the same as Client.HandleBareGet, whose result it returns: a body without `ct` gives MissingCt, where line 68 hands `null` to `decrypt`.
- A `null` code or message of a ResponseBody is not modelled. Both are strings, and the message text they would enter is not modelled either.
- Http.FirstHeader: compares header names ignoring ASCII case only. Non-ASCII case folding of Java's `equalsIgnoreCase` is not modelled.
- Concurrency is not modelled. Each exchange is a pure function of its inputs.

=== FILE: client.dfy ===
/** The public operations of DefaultHttpClient: bare GET, typed GET (with and without an
    access token) and POST. The transport is the parameter `send`; the nonce is a parameter. */
module Client {
  import opened Outcomes
  import opened Http
  import opened Protocol
  import opened Collaborators
  import opened ResponsePipeline
  import opened RequestBuilder

  /** Decrypts ciphertext bytes and reads the plaintext JSON as the return type. */
  function DecodeResult<C, T>(env: Env<C, T>, ciphertext: Bytes): (r: Result<T, Error>)
    ensures env.cipher.decrypt(ciphertext).None? ==> r == Failure(DecryptFailed)
    ensures var pt := env.cipher.decrypt(ciphertext);
            pt.Some? ==> r == env.json.resultFromJson(env.enc.utf8Decode(pt.value)).OrError(MalformedResult)
    ensures r.Success? ==>
              && env.cipher.decrypt(ciphertext).Some?
              && env.json.resultFromJson(env.enc.utf8Decode(env.cipher.decrypt(ciphertext).value)) == Some(r.value)
    ensures r.Failure? ==> r.error in {DecryptFailed, MalformedResult}
  {
    var pt :- env.cipher.decrypt(ciphertext).OrError(DecryptFailed);
    env.json.resultFromJson(env.enc.utf8Decode(pt)).OrError(MalformedResult)
  }

  /** The business check common to every public path: a verified body reporting `fail()`
      becomes BusinessFail with its code and message; any other verified body is accepted. */
  function AcceptBody<C, T>(env: Env<C, T>, resp: Response): (r: Result<ResponseBody, Error>)
    ensures AnalyzeBody(env, resp).Failure? ==> r == AnalyzeBody(env, resp)
    ensures var b := AnalyzeBody(env, resp);
            b.Success? && env.fail(b.value) ==> r == Failure(BusinessFail(b.value.code, b.value.message))
    ensures var b := AnalyzeBody(env, resp);
            b.Success? && !env.fail(b.value) ==> r == b
    ensures r.Success? ==> AnalyzeBody(env, resp) == r && !env.fail(r.value)
  {
    var body :- AnalyzeBody(env, resp);
    if env.fail(body) then Failure(BusinessFail(body.code, body.message)) else Success(body)
  }

  /** Response half of the bare `get(url, returnType)`: `ct` is Base64-decoded before decryption. */
  function HandleBareGet<C, T>(env: Env<C, T>, resp: Response): (r: Result<T, Error>)
    ensures AcceptBody(env, resp).Failure? ==> r == Failure(AcceptBody(env, resp).error)
    ensures var b := AcceptBody(env, resp);
            b.Success? && b.value.ct.None? ==> r == Failure(MissingCt)
    ensures var b := AcceptBody(env, resp);
            b.Success? && b.value.ct.Some? ==> r == DecodeResult(env, env.enc.base64Decode(b.value.ct.value))
  {
    var body :- AcceptBody(env, resp);
    var ct :- body.ct.OrError(MissingCt);
    DecodeResult(env, env.enc.base64Decode(ct))
  }

  /** Response half of the typed `get`: the UTF-8 bytes of `ct` are decrypted as they are,
      with no Base64 decoding. */
  function HandleTypedGet<C, T>(env: Env<C, T>, resp: Response): (r: Result<T, Error>)
    ensures AcceptBody(env, resp).Failure? ==> r == Failure(AcceptBody(env, resp).error)
    ensures var b := AcceptBody(env, resp);
            b.Success? && b.value.ct.None? ==> r == Failure(MissingCt)
    ensures var b := AcceptBody(env, resp);
            b.Success? && b.value.ct.Some? ==> r == DecodeResult(env, env.enc.utf8Encode(b.value.ct.value))
  {
    var body :- AcceptBody(env, resp);
    var ct :- body.ct.OrError(MissingCt);
    DecodeResult(env, env.enc.utf8Encode(ct))
  }

  /** Response half of `post`: nothing is decrypted; only the checks up to `fail()` apply. */
  function HandlePost<C, T>(env: Env<C, T>, resp: Response): (r: Result<(), Error>)
    ensures r.Success? <==> AcceptBody(env, resp).Success?
    ensures r.Failure? ==> r.error == AcceptBody(env, resp).error
  {
    var _ :- AcceptBody(env, resp);
    Success(())
  }

  /** `get(url, returnType)`. */
  function GetBare<C, T>(env: Env<C, T>, send: Request -> Response, url: string): (r: Result<T, Error>)
    ensures var resp := send(BareGetRequest(url));
            !IsSuccess(resp.status) ==> r == Failure(BadStatus(resp.status))
    ensures var b := AcceptBody(env, send(BareGetRequest(url)));
            && (b.Failure? ==> r == Failure(b.error))
            && (b.Success? && b.value.ct.None? ==> r == Failure(MissingCt))
            && (b.Success? && b.value.ct.Some? ==> r == DecodeResult(env, env.enc.base64Decode(b.value.ct.value)))
  {
    HandleBareGet(env, send(BareGetRequest(url)))
  }

  /** `get(url, command, returnType, accessToken)`. */
  function GetTyped<C, T>(env: Env<C, T>, send: Request -> Response, url: string, command: C,
                          accessToken: string, nonce: string): (r: Result<T, Error>)
    ensures var resp := send(GetRequest(env, url, command, accessToken, nonce));
            !IsSuccess(resp.status) ==> r == Failure(BadStatus(resp.status))
    ensures var b := AcceptBody(env, send(GetRequest(env, url, command, accessToken, nonce)));
            && (b.Failure? ==> r == Failure(b.error))
            && (b.Success? && b.value.ct.None? ==> r == Failure(MissingCt))
            && (b.Success? && b.value.ct.Some? ==> r == DecodeResult(env, env.enc.utf8Encode(b.value.ct.value)))
  {
    HandleTypedGet(env, send(GetRequest(env, url, command, accessToken, nonce)))
  }

  /** `get(url, command, returnType)`: the typed GET with the empty access token. */
  function GetTypedNoToken<C, T>(env: Env<C, T>, send: Request -> Response, url: string, command: C,
                                 nonce: string): (r: Result<T, Error>)
    ensures var resp := send(GetRequest(env, url, command, "", nonce));
            !IsSuccess(resp.status) ==> r == Failure(BadStatus(resp.status))
    ensures var b := AcceptBody(env, send(GetRequest(env, url, command, "", nonce)));
            && (b.Failure? ==> r == Failure(b.error))
            && (b.Success? && b.value.ct.None? ==> r == Failure(MissingCt))
            && (b.Success? && b.value.ct.Some? ==> r == DecodeResult(env, env.enc.utf8Encode(b.value.ct.value)))
  {
    GetTyped(env, send, url, command, "", nonce)
  }

  /** `post(url, command, accessToken)`. */
  function DoPost<C, T>(env: Env<C, T>, send: Request -> Response, url: string, command: C,
                        accessToken: string, nonce: string): (r: Result<(), Error>)
    ensures var resp := send(PostRequest(env, url, command, accessToken, nonce));
            !IsSuccess(resp.status) ==> r == Failure(BadStatus(resp.status))
    ensures var b := AcceptBody(env, send(PostRequest(env, url, command, accessToken, nonce)));
            && (r.Success? <==> b.Success?)
            && (b.Failure? ==> r == Failure(b.error))
  {
    HandlePost(env, send(PostRequest(env, url, command, accessToken, nonce)))
  }
}

=== FILE: collaborators.dfy ===
/** The collaborators the client is built from, injected as function values.
    Nothing is assumed about them beyond their types. */
module Collaborators {
  import opened Outcomes
  import opened Http
  import opened Protocol

  /** CipherHelper, bound to the caller's private key and the counterparty's public key. */
  datatype Cipher = Cipher(
    encrypt: Bytes -> Bytes,
    decrypt: Bytes -> Option<Bytes>,
    sign: (Bytes, Bytes) -> Bytes,
    verify: (Bytes, Bytes, Bytes) -> bool)

  /** JsonHelper, at the types the client uses it at: the command `C`, the singleton map
      `{"ct": ...}`, the ResponseBody class and the requested return type `T`. */
  datatype Json<-C, T> = Json(
    commandToJson: C -> string,
    ctToJson: string -> string,
    bodyFromJson: string -> Option<ResponseBody>,
    resultFromJson: string -> Option<T>)

  /** `String.getBytes` / `new String` with the configured UTF-8 encoding, and Commons Base64. */
  datatype Encoding = Encoding(
    utf8Encode: string -> Bytes,
    utf8Decode: Bytes -> string,
    base64UrlSafe: Bytes -> string,
    base64Decode: string -> Bytes)

  /** Everything a DefaultHttpClient is configured with. `fail` is `ResponseBody.fail()`;
      `whitespace` is the character set behind `StringUtils.isBlank`. */
  datatype Env<-C, T> = Env(
    cipher: Cipher,
    json: Json<C, T>,
    enc: Encoding,
    fail: ResponseBody -> bool,
    whitespace: set<char>)
}

=== FILE: counterparty.dfy ===
/** What the other end of the exchange can read from the envelopes: independent reference
    definitions of the receiving side, and lemmas tying them to the client's behaviour. */
module Counterparty {
  import opened Outcomes
  import opened Text
  import opened Http
  import opened Protocol
  import opened Collaborators
  import opened ResponsePipeline
  import opened RequestBuilder
  import opened Client

  /** The part of a URL before its fragment: everything up to the first `#`. */
  function BeforeFragment(url: string): string {
    var h := IndexOf(url, '#');
    if h < 0 then url else url[..h]
  }

  /** The query string of a URL (section 3.4 of RFC 3986): what follows the first `?` up to the
      fragment; a `?` inside the fragment starts no query. */
  function QueryOf(url: string): Option<string> {
    var front := BeforeFragment(url);
    var k := IndexOf(front, '?');
    if k < 0 then None else Some(front[k + 1..])
  }

  /** The ciphertext carried by a query string of the form `ct=<ciphertext>`. */
  function CiphertextOf(query: string): Option<string> {
    if |query| >= 3 && query[..3] == "ct=" then Some(query[3..]) else None
  }

  /** The text the GET appends to the caller's URL has no `#` when the encoder writes the
      URL-safe Base64 alphabet. */
  lemma AppendedQueryHasNoFragment<C, T>(env: Env<C, T>, command: C)
    requires forall b :: UrlSafeBase64(env.enc.base64UrlSafe(b))
    ensures '#' !in "?" + QueryString(Encrypt(env, command))
  {
    var e := Encrypt(env, command);
    assert UrlSafeBase64(e);
    assert forall i :: 0 <= i < |e| ==> ("?" + QueryString(e))[i + 4] == e[i];
  }

  /** For a URL without a query or fragment of its own, a receiver reading the query of the GET
      URL recovers exactly the signed query string and, from it, the ciphertext. */
  lemma GetUrlCarriesCiphertext<C, T>(env: Env<C, T>, url: string, command: C, accessToken: string, nonce: string)
    requires '?' !in url && '#' !in url
    requires forall b :: UrlSafeBase64(env.enc.base64UrlSafe(b))
    ensures var req := GetRequest(env, url, command, accessToken, nonce);
            && QueryOf(req.url) == Some(QueryString(Encrypt(env, command)))
            && CiphertextOf(QueryOf(req.url).value) == Some(Encrypt(env, command))
            && FirstHeader(req.headers, SIGNATURE) == Some(Sign(env, QueryOf(req.url).value, nonce))
  {
    var req := GetRequest(env, url, command, accessToken, nonce);
    var q := QueryString(Encrypt(env, command));
    assert req.url == url + ("?" + q);
    AppendedQueryHasNoFragment(env, command);
    IndexOfAfterPrefix(url, "?" + q, '#');
    assert BeforeFragment(req.url) == req.url;
    IndexOfAfterPrefix(url, "?" + q, '?');
    assert ("?" + q)[0] == '?';
    assert req.url[|url| + 1..] == q;
    assert q[..3] == "ct=";
  }

  /** When the caller's URL already has a query and no fragment, the `?ct=...` is appended to
      that query: the receiver reads the caller's query, a `?`, then the signed query string,
      which is therefore not what it reads. */
  lemma UrlWithQueryHidesSignedText<C, T>(env: Env<C, T>, url: string, command: C, accessToken: string, nonce: string)
    requires '?' in url && '#' !in url
    requires forall b :: UrlSafeBase64(env.enc.base64UrlSafe(b))
    ensures var req := GetRequest(env, url, command, accessToken, nonce);
            var q := QueryString(Encrypt(env, command));
            && QueryOf(url).Some?
            && QueryOf(req.url) == Some(QueryOf(url).value + "?" + q)
            && QueryOf(req.url) != Some(q)
  {
    var req := GetRequest(env, url, command, accessToken, nonce);
    var q := QueryString(Encrypt(env, command));
    assert req.url == url + ("?" + q);
    AppendedQueryHasNoFragment(env, command);
    IndexOfAfterPrefix(url, "?" + q, '#');
    assert BeforeFragment(req.url) == req.url;
    assert BeforeFragment(url) == url;
    IndexOfInPrefix(url, "?" + q, '?');
    var i := IndexOf(url, '?');
    assert req.url[i + 1..] == url[i + 1..] + "?" + q;
  }

  /** When the caller's URL has a fragment, the `?ct=...` lands inside it and is never sent:
      the receiver reads the caller's own query, the same whatever the command. */
  lemma UrlWithFragmentDropsCiphertext<C, T>(env: Env<C, T>, url: string, command: C, accessToken: string, nonce: string)
    requires '#' in url
    ensures QueryOf(GetRequest(env, url, command, accessToken, nonce).url) == QueryOf(url)
  {
    var req := GetRequest(env, url, command, accessToken, nonce);
    var q := QueryString(Encrypt(env, command));
    assert req.url == url + ("?" + q);
    IndexOfInPrefix(url, "?" + q, '#');
    var h := IndexOf(url, '#');
    assert req.url[..h] == url[..h];
  }

  /** The receiver's signature check on a request: the X-Signature and X-Nonce headers are
      both needed; `peerVerify` is the receiver's verification with the caller's public key. */
  predicate PeerAccepts<C, T>(env: Env<C, T>, peerVerify: (Bytes, Bytes, Bytes) -> bool, req: Request, content: Bytes) {
    match (FirstHeader(req.headers, SIGNATURE), FirstHeader(req.headers, NONCE))
    case (Some(signature), Some(nonce)) =>
      peerVerify(content, env.enc.utf8Encode(nonce), env.enc.base64Decode(signature))
    case _ => false
  }

  /** With matching keys and a Base64 decoder that reads the URL-safe alphabet, the receiver
      accepts a POST's signature over exactly the entity bytes it receives. */
  lemma PostVerifiableByPeer<C, T>(env: Env<C, T>, peerVerify: (Bytes, Bytes, Bytes) -> bool,
                                   url: string, command: C, accessToken: string, nonce: string)
    requires forall c, n :: peerVerify(c, n, env.cipher.sign(c, n))
    requires forall b :: env.enc.base64Decode(env.enc.base64UrlSafe(b)) == b
    ensures var req := PostRequest(env, url, command, accessToken, nonce);
            req.entity.Some? && PeerAccepts(env, peerVerify, req, req.entity.value)
  {
    var body := PostBody(env, command);
    var sig := env.cipher.sign(env.enc.utf8Encode(body), env.enc.utf8Encode(nonce));
    assert env.enc.base64Decode(env.enc.base64UrlSafe(sig)) == sig;
  }

  /** A signed GET can never pass the receiver's check: it carries no X-Nonce, and neither does
      the bare GET, which is not signed at all. */
  lemma GetNeverVerifiableByPeer<C, T>(env: Env<C, T>, peerVerify: (Bytes, Bytes, Bytes) -> bool,
                                       url: string, command: C, accessToken: string, nonce: string, content: Bytes)
    ensures !PeerAccepts(env, peerVerify, GetRequest(env, url, command, accessToken, nonce), content)
    ensures !PeerAccepts(env, peerVerify, BareGetRequest(url), content)
  {
  }

  /** A response as the counterparty builds it: status 200, the standard-Base64 signature over
      the body's UTF-8 bytes and the nonce, the nonce itself, and the body as entity. */
  function SignedResponse<C, T>(env: Env<C, T>, peerSign: (Bytes, Bytes) -> Bytes, peerBase64: Bytes -> string,
                                entity: Bytes, signedBody: string, nonce: string): Response {
    var signature := peerBase64(peerSign(env.enc.utf8Encode(signedBody), env.enc.utf8Encode(nonce)));
    Response(200, [Header(SIGNATURE, signature), Header(NONCE, nonce)], Some(entity))
  }

  /** The two headers of a counterparty response are found where they were put. */
  lemma SignedResponseHeaders<C, T>(env: Env<C, T>, peerSign: (Bytes, Bytes) -> Bytes, peerBase64: Bytes -> string,
                                    entity: Bytes, signedBody: string, nonce: string)
    ensures var resp := SignedResponse(env, peerSign, peerBase64, entity, signedBody, nonce);
            && FirstHeader(resp.headers, SIGNATURE) == Some(resp.headers[0].value)
            && FirstHeader(resp.headers, NONCE) == Some(nonce)
  {
    var resp := SignedResponse(env, peerSign, peerBase64, entity, signedBody, nonce);
    assert resp.headers == [resp.headers[0]] + ([resp.headers[1]] + []);
    FirstHeaderCons(resp.headers[0], [resp.headers[1]], SIGNATURE);
    FirstHeaderCons(resp.headers[0], [resp.headers[1]], NONCE);
    FirstHeaderCons(resp.headers[1], [], NONCE);
  }

  /** A correctly signed response is accepted: the pipeline returns the parse of its body, and
      the typed GET returns the decryption of its `ct` when that body does not report `fail()`. */
  lemma AcceptsCorrectlySignedResponse<C, T>(env: Env<C, T>, peerSign: (Bytes, Bytes) -> Bytes,
                                             peerBase64: Bytes -> string, body: string, nonce: string)
    requires forall c, n :: env.cipher.verify(c, n, peerSign(c, n))
    requires forall b :: env.enc.base64Decode(peerBase64(b)) == b
    requires env.enc.utf8Decode(env.enc.utf8Encode(body)) == body
    requires !Blank(env.whitespace, nonce)
    requires !Blank(env.whitespace, peerBase64(peerSign(env.enc.utf8Encode(body), env.enc.utf8Encode(nonce))))
    ensures var resp := SignedResponse(env, peerSign, peerBase64, env.enc.utf8Encode(body), body, nonce);
            && AnalyzeBody(env, resp) == env.json.bodyFromJson(body).OrError(MalformedBody)
            && (var b := env.json.bodyFromJson(body);
                b.Some? && !env.fail(b.value) && b.value.ct.Some? ==>
                  HandleTypedGet(env, resp) == DecodeResult(env, env.enc.utf8Encode(b.value.ct.value)))
  {
    var resp := SignedResponse(env, peerSign, peerBase64, env.enc.utf8Encode(body), body, nonce);
    SignedResponseHeaders(env, peerSign, peerBase64, env.enc.utf8Encode(body), body, nonce);
    var sig := peerSign(env.enc.utf8Encode(body), env.enc.utf8Encode(nonce));
    assert env.enc.base64Decode(peerBase64(sig)) == sig;
    assert env.cipher.verify(env.enc.utf8Encode(body), env.enc.utf8Encode(nonce), sig);
  }

  /** End to end: when the transport answers with a correctly signed reply whose body does not
      report `fail()` and carries a `ct`, both GETs return the decryption of that `ct` (read as
      Base64 on the bare GET, as raw UTF-8 bytes on the typed GET) and the POST succeeds. */
  lemma SignedReplyCompletesExchange<C, T>(env: Env<C, T>, peerSign: (Bytes, Bytes) -> Bytes, peerBase64: Bytes -> string,
                                           url: string, command: C, accessToken: string, nonce: string,
                                           body: string, replyNonce: string)
    requires forall c, n :: env.cipher.verify(c, n, peerSign(c, n))
    requires forall b :: env.enc.base64Decode(peerBase64(b)) == b
    requires env.enc.utf8Decode(env.enc.utf8Encode(body)) == body
    requires !Blank(env.whitespace, replyNonce)
    requires !Blank(env.whitespace, peerBase64(peerSign(env.enc.utf8Encode(body), env.enc.utf8Encode(replyNonce))))
    requires var b := env.json.bodyFromJson(body); b.Some? && !env.fail(b.value) && b.value.ct.Some?
    ensures var reply := SignedResponse(env, peerSign, peerBase64, env.enc.utf8Encode(body), body, replyNonce);
            var send := (req: Request) => reply;
            var ct := env.json.bodyFromJson(body).value.ct.value;
            && GetBare(env, send, url) == DecodeResult(env, env.enc.base64Decode(ct))
            && GetTyped(env, send, url, command, accessToken, nonce) == DecodeResult(env, env.enc.utf8Encode(ct))
            && DoPost(env, send, url, command, accessToken, nonce) == Success(())
  {
    AcceptsCorrectlySignedResponse(env, peerSign, peerBase64, body, replyNonce);
  }

  /** The result the counterparty sends comes back: when `decrypt` undoes the counterparty's
      encryption, UTF-8 decoding undoes encoding and `fromJson` reads what the counterparty's
      `toJson` wrote, decoding the ciphertext of a value yields that value. */
  lemma DecodeResultRecoversSentResult<C, T>(env: Env<C, T>, peerEncrypt: Bytes -> Bytes,
                                            resultToJson: T -> string, v: T)
    requires forall p :: env.cipher.decrypt(peerEncrypt(p)) == Some(p)
    requires forall s :: env.enc.utf8Decode(env.enc.utf8Encode(s)) == s
    requires forall x :: env.json.resultFromJson(resultToJson(x)) == Some(x)
    ensures DecodeResult(env, peerEncrypt(env.enc.utf8Encode(resultToJson(v)))) == Success(v)
  {
    var text := resultToJson(v);
    assert env.cipher.decrypt(peerEncrypt(env.enc.utf8Encode(text))) == Some(env.enc.utf8Encode(text));
    assert env.enc.utf8Decode(env.enc.utf8Encode(text)) == text;
  }

  /** A body other than the one that was signed is rejected with VerifyFailed on every path,
      when a signature verifies only for the content it was made over. */
  lemma RejectsTamperedBody<C, T>(env: Env<C, T>, peerSign: (Bytes, Bytes) -> Bytes,
                                  peerBase64: Bytes -> string, body: string, tampered: string, nonce: string)
    requires forall c, c', n :: c != c' ==> !env.cipher.verify(c', n, peerSign(c, n))
    requires forall b :: env.enc.base64Decode(peerBase64(b)) == b
    requires env.enc.utf8Decode(env.enc.utf8Encode(tampered)) == tampered
    requires env.enc.utf8Encode(tampered) != env.enc.utf8Encode(body)
    requires !Blank(env.whitespace, nonce)
    requires !Blank(env.whitespace, peerBase64(peerSign(env.enc.utf8Encode(body), env.enc.utf8Encode(nonce))))
    ensures var resp := SignedResponse(env, peerSign, peerBase64, env.enc.utf8Encode(tampered), body, nonce);
            && AnalyzeBody(env, resp) == Failure(VerifyFailed)
            && HandleBareGet(env, resp) == Failure(VerifyFailed)
            && HandleTypedGet(env, resp) == Failure(VerifyFailed)
            && HandlePost(env, resp) == Failure(VerifyFailed)
  {
    var resp := SignedResponse(env, peerSign, peerBase64, env.enc.utf8Encode(tampered), body, nonce);
    SignedResponseHeaders(env, peerSign, peerBase64, env.enc.utf8Encode(tampered), body, nonce);
    var sig := peerSign(env.enc.utf8Encode(body), env.enc.utf8Encode(nonce));
    assert env.enc.base64Decode(peerBase64(sig)) == sig;
    assert !env.cipher.verify(env.enc.utf8Encode(tampered), env.enc.utf8Encode(nonce), sig);
  }
}

=== FILE: exchange_properties.dfy ===
/** Properties relating several calls of the response pipeline and the public paths:
    what each decision does NOT depend on, and how the three paths differ. */
module ExchangeProperties {
  import opened Outcomes
  import opened Text
  import opened Http
  import opened Protocol
  import opened Collaborators
  import opened ResponsePipeline
  import opened RequestBuilder
  import opened Client

  /** A status other than 200 or 204 ends every public path with BadStatus. */
  lemma BadStatusFailsEveryPath<C, T>(env: Env<C, T>, resp: Response)
    requires !IsSuccess(resp.status)
    ensures HandleBareGet(env, resp) == Failure(BadStatus(resp.status))
    ensures HandleTypedGet(env, resp) == Failure(BadStatus(resp.status))
    ensures HandlePost(env, resp) == Failure(BadStatus(resp.status))
  {
  }

  /** Under a bad status neither the headers nor the entity are examined. */
  lemma BadStatusIgnoresHeadersAndBody<C, T>(env: Env<C, T>, resp: Response, headers: seq<Header>, entity: Option<Bytes>)
    requires !IsSuccess(resp.status)
    ensures AnalyzeBody(env, resp.(headers := headers, entity := entity)) == AnalyzeBody(env, resp)
  {
  }

  /** Once the signature header is missing or blank that is the error reported, whatever
      the nonce header and the entity hold. */
  lemma SignatureErrorComesFirst<C, T>(env: Env<C, T>, resp: Response, headers: seq<Header>, entity: Option<Bytes>)
    requires IsSuccess(resp.status)
    requires FirstHeader(resp.headers, SIGNATURE).None? || Blank(env.whitespace, FirstHeader(resp.headers, SIGNATURE).value)
    requires FirstHeader(headers, SIGNATURE) == FirstHeader(resp.headers, SIGNATURE)
    ensures AnalyzeBody(env, resp.(headers := headers, entity := entity)) == AnalyzeBody(env, resp)
    ensures AnalyzeBody(env, resp) == Failure(if FirstHeader(resp.headers, SIGNATURE).None? then MissingSignature else BlankSignature)
  {
  }

  /** Repeated headers after the first X-Signature and the first X-Nonce change nothing. */
  lemma LaterHeadersIgnored<C, T>(env: Env<C, T>, resp: Response, more: seq<Header>)
    requires FirstHeader(resp.headers, SIGNATURE).Some? && FirstHeader(resp.headers, NONCE).Some?
    ensures AnalyzeHeader(env, resp.(headers := resp.headers + more)) == AnalyzeHeader(env, resp)
    ensures AnalyzeBody(env, resp.(headers := resp.headers + more)) == AnalyzeBody(env, resp)
  {
    FirstHeaderIgnoresLater(resp.headers, more, SIGNATURE);
    FirstHeaderIgnoresLater(resp.headers, more, NONCE);
  }

  /** The body parser is consulted only on text whose signature verified: unless the status,
      the headers, the entity and the signature all pass, replacing the parser changes nothing. */
  lemma UnverifiedBodyNeverParsed<C, T>(env: Env<C, T>, resp: Response, parser: string -> Option<ResponseBody>)
    requires var h := AnalyzeHeader(env, resp);
             !(IsSuccess(resp.status) && h.Success? && resp.entity.Some? &&
               VerifySignature(env, BodyText(env, resp.entity.value), h.value.nonce, h.value.signature))
    ensures AnalyzeBody(env.(json := env.json.(bodyFromJson := parser)), resp) == AnalyzeBody(env, resp)
    ensures AnalyzeBody(env, resp).Failure? && AnalyzeBody(env, resp).error != MalformedBody
  {
    var env' := env.(json := env.json.(bodyFromJson := parser));
    assert AnalyzeHeader(env', resp) == AnalyzeHeader(env, resp);
  }

  /** A verified body whose `fail()` holds ends every public path with BusinessFail carrying its
      code and message, and no decryption or result parsing is consulted. */
  lemma BusinessFailureNeverDecrypts<C, T>(env: Env<C, T>, resp: Response,
                                           decrypt: Bytes -> Option<Bytes>, resultFromJson: string -> Option<T>)
    requires AnalyzeBody(env, resp).Success? && env.fail(AnalyzeBody(env, resp).value)
    ensures var b := AnalyzeBody(env, resp).value;
            && HandleBareGet(env, resp) == Failure(BusinessFail(b.code, b.message))
            && HandleTypedGet(env, resp) == Failure(BusinessFail(b.code, b.message))
            && HandlePost(env, resp) == Failure(BusinessFail(b.code, b.message))
    ensures var env' := env.(cipher := env.cipher.(decrypt := decrypt), json := env.json.(resultFromJson := resultFromJson));
            && HandleBareGet(env', resp) == HandleBareGet(env, resp)
            && HandleTypedGet(env', resp) == HandleTypedGet(env, resp)
            && HandlePost(env', resp) == HandlePost(env, resp)
  {
    var env' := env.(cipher := env.cipher.(decrypt := decrypt), json := env.json.(resultFromJson := resultFromJson));
    assert AnalyzeHeader(env', resp) == AnalyzeHeader(env, resp);
    assert AnalyzeBody(env', resp) == AnalyzeBody(env, resp);
  }

  /** Any public path that returns a value went through a verified, non-failing body, and the
      value is the decryption of that body's `ct`: Base64-decoded on the bare GET, its raw UTF-8
      bytes on the typed GET. */
  lemma SuccessMeansVerified<C, T>(env: Env<C, T>, resp: Response)
    ensures HandleBareGet(env, resp).Success? ==>
              var b := AnalyzeBody(env, resp);
              && b.Success? && !env.fail(b.value) && b.value.ct.Some?
              && DecodeResult(env, env.enc.base64Decode(b.value.ct.value)) == HandleBareGet(env, resp)
    ensures HandleTypedGet(env, resp).Success? ==>
              var b := AnalyzeBody(env, resp);
              && b.Success? && !env.fail(b.value) && b.value.ct.Some?
              && DecodeResult(env, env.enc.utf8Encode(b.value.ct.value)) == HandleTypedGet(env, resp)
    ensures HandlePost(env, resp).Success? ==>
              AnalyzeBody(env, resp).Success? && !env.fail(AnalyzeBody(env, resp).value)
  {
  }

  /** The one-argument-shorter typed GET sends no X-Access-Token. */
  lemma NoTokenOverloadSendsNoToken<C, T>(env: Env<C, T>, url: string, command: C, nonce: string)
    ensures FirstHeader(GetRequest(env, url, command, "", nonce).headers, ACCESS_TOKEN).None?
  {
  }

  /** The two GET paths read `ct` differently: an environment and a response for which the bare
      GET returns a value while the typed GET fails to decrypt. */
  lemma GetPathsDecodeCtDifferently()
    ensures var env := AsymmetryEnv();
            var resp := AsymmetryResponse();
            HandleBareGet(env, resp) == Success(42) && HandleTypedGet(env, resp) == Failure(DecryptFailed)
  {
    var env := AsymmetryEnv();
    var resp := AsymmetryResponse();
    assert FirstHeader(resp.headers, SIGNATURE) == Some("s") by {
      FirstHeaderCons(resp.headers[0], resp.headers[1..], SIGNATURE);
    }
    assert FirstHeader(resp.headers, NONCE) == Some("n") by {
      FirstHeaderCons(resp.headers[0], resp.headers[1..], NONCE);
      FirstHeaderCons(resp.headers[1], [], NONCE);
      assert resp.headers[1..] == [resp.headers[1]] + [];
    }
    assert !Blank(env.whitespace, "s") && !Blank(env.whitespace, "n") by {
      assert "s"[0] !in env.whitespace && "n"[0] !in env.whitespace;
    }
    assert AnalyzeHeader(env, resp) == Success(ResponseHeader("s", "n"));
    assert AnalyzeBody(env, resp) == Success(ResponseBody("0", "", Some("ct")));
  }

  /** Collaborators in which only the Base64 decoding of "ct" is a valid ciphertext. */
  function AsymmetryEnv(): Env<int, int> {
    Env(
      Cipher(b => b, b => if b == [7] then Some(b) else None, (c, n) => [], (c, n, s) => true),
      Json(c => "", ct => ct, s => Some(ResponseBody("0", "", Some("ct"))), s => Some(42)),
      Encoding(s => [], b => "", b => "", s => [7]),
      b => false,
      {})
  }

  function AsymmetryResponse(): Response {
    Response(200, [Header(SIGNATURE, "s"), Header(NONCE, "n")], Some([]))
  }
}

=== FILE: http.dfy ===
/** The HTTP messages as plain values: the transport itself is not part of the model. */
module Http {
  import opened Outcomes
  import opened Text

  newtype byte = x: int | 0 <= x < 256
  type Bytes = seq<byte>

  datatype Header = Header(name: string, value: string)

  datatype Method = Get | Post

  /** An outgoing request as handed to the transport: verb, full URL, headers in the order
      they were added, and the entity (absent for GET). */
  datatype Request = Request(verb: Method, url: string, headers: seq<Header>, entity: Option<Bytes>)

  /** A received response: status code, headers in arrival order, and the entity bytes
      (absent when the response carries no entity). */
  datatype Response = Response(status: int, headers: seq<Header>, entity: Option<Bytes>)

  predicate Named(h: Header, name: string) {
    SameHeaderName(h.name, name)
  }

  /** `i` is the position of the first header called `name`. */
  predicate IsFirstNamed(hs: seq<Header>, name: string, i: int) {
    && 0 <= i < |hs|
    && Named(hs[i], name)
    && forall j :: 0 <= j < i ==> !Named(hs[j], name)
  }

  /** Index of the first header called `name`, or `|hs|` when there is none. */
  function FirstIndex(hs: seq<Header>, name: string): (k: nat)
    ensures k <= |hs|
    ensures k < |hs| ==> Named(hs[k], name)
    ensures forall j :: 0 <= j < k ==> !Named(hs[j], name)
  {
    if |hs| == 0 then 0
    else if Named(hs[0], name) then 0
    else 1 + FirstIndex(hs[1..], name)
  }

  /** `getFirstHeader(name).getValue()`, with `None` for a `null` header. */
  function FirstHeader(hs: seq<Header>, name: string): (v: Option<string>)
    ensures v.None? <==> forall i :: 0 <= i < |hs| ==> !Named(hs[i], name)
    ensures v.Some? ==> exists i :: IsFirstNamed(hs, name, i) && hs[i].value == v.value
  {
    var k := FirstIndex(hs, name);
    if k < |hs| then
      assert IsFirstNamed(hs, name, k);
      Some(hs[k].value)
    else None
  }

  /** Lookup in a header list with one more header in front. */
  lemma FirstHeaderCons(h: Header, hs: seq<Header>, name: string)
    ensures FirstHeader([h] + hs, name) == if Named(h, name) then Some(h.value) else FirstHeader(hs, name)
  {
    assert ([h] + hs)[0] == h;
    assert ([h] + hs)[1..] == hs;
  }

  /** Headers that arrive after the first one called `name` never change what is read for it. */
  lemma {:induction false} FirstHeaderIgnoresLater(hs: seq<Header>, more: seq<Header>, name: string)
    requires FirstHeader(hs, name).Some?
    ensures FirstHeader(hs + more, name) == FirstHeader(hs, name)
  {
    if Named(hs[0], name) {
      assert (hs + more)[0] == hs[0];
    } else {
      assert (hs + more)[1..] == hs[1..] + more;
      assert FirstHeader(hs[1..], name).Some? by {
        var i :| IsFirstNamed(hs, name, i);
        assert IsFirstNamed(hs[1..], name, i - 1);
      }
      FirstHeaderIgnoresLater(hs[1..], more, name);
    }
  }
}

=== FILE: outcomes.dfy ===
/** The two shapes every stage of the exchange returns. */
module Outcomes {

  /** A value that may be absent: a Java `null`, or a collaborator that gave nothing back. */
  datatype Option<+T> = None | Some(value: T) {

    /** An absent value becomes the error `error`; a present one is passed on. */
    function OrError<E>(error: E): Result<T, E> {
      if Some? then Success(value) else Failure(error)
    }
  }

  /** Either a value, or the error that aborted the exchange (a thrown exception in the source).
      The three members below make it usable with `:-`. */
  datatype Result<+R, +E> = Success(value: R) | Failure(error: E) {
    predicate IsFailure() {
      Failure?
    }

    function PropagateFailure<U>(): Result<U, E>
      requires Failure?
    {
      Failure(error)
    }

    function Extract(): R
      requires Success?
    {
      value
    }
  }
}

=== FILE: protocol.dfy ===
/** Wire constants, the records read from a response, and the ways an exchange can fail. */
module Protocol {
  import opened Outcomes

  const SIGNATURE := "X-Signature"
  const NONCE := "X-Nonce"
  const ACCESS_TOKEN := "X-Access-Token"
  const CONTENT_TYPE := "Content-Type"
  const APPLICATION_JSON := "application/json"

  /** The two values `analyzeHeader` reads from a response. */
  datatype ResponseHeader = ResponseHeader(signature: string, nonce: string)

  /** The verified response envelope `{code, message, ct}`; `ct` is `None` when the JSON
      carries none and the getter returns `null`. */
  datatype ResponseBody = ResponseBody(code: string, message: string, ct: Option<string>)

  /** One constructor per exception of the exchange that the model distinguishes. */
  datatype Error =
    | BadStatus(status: int)                   // status other than 200 or 204
    | MissingSignature                         // no X-Signature header
    | BlankSignature                           // X-Signature present but blank
    | MissingNonce                             // X-Nonce absent or blank (one message for both)
    | MissingEntity                            // response without an entity
    | VerifyFailed                             // body signature does not verify
    | MalformedBody                            // verified body is not a ResponseBody
    | BusinessFail(code: string, message: string) // verified body reports fail()
    | MissingCt                                // accepted body without ct
    | DecryptFailed                            // decryption of ct raised
    | MalformedResult                          // decrypted JSON is not the return type
}

=== FILE: request_builder.dfy ===
/** Construction of the outgoing envelopes (`encrypt`, `sign`, the private
    `get(url, command, accessToken)` and the request half of `post`). */
module RequestBuilder {
  import opened Outcomes
  import opened Text
  import opened Http
  import opened Protocol
  import opened Collaborators

  /** The command as URL-safe Base64 of the encryption of its UTF-8 JSON text. */
  function Encrypt<C, T>(env: Env<C, T>, command: C): string {
    env.enc.base64UrlSafe(env.cipher.encrypt(env.enc.utf8Encode(env.json.commandToJson(command))))
  }

  /** URL-safe Base64 of the signature over the UTF-8 bytes of content and nonce. */
  function Sign<C, T>(env: Env<C, T>, content: string, nonce: string): string {
    env.enc.base64UrlSafe(env.cipher.sign(env.enc.utf8Encode(content), env.enc.utf8Encode(nonce)))
  }

  /** The GET query string `ct=<ciphertext>`. */
  function QueryString(ciphertext: string): string {
    "ct=" + ciphertext
  }

  /** The request of the bare `get(url, returnType)`: the URL as given, nothing signed or attached. */
  function BareGetRequest(url: string): (req: Request)
    ensures req.verb == Get && req.url == url && req.entity.None?
    ensures forall name :: FirstHeader(req.headers, name).None?
  {
    Request(Get, url, [], None)
  }

  /** The signed GET: the ciphertext travels in the query string, the signature over that
      query string in X-Signature, the token only when it is not blank, and no X-Nonce. */
  function GetRequest<C, T>(env: Env<C, T>, url: string, command: C, accessToken: string, nonce: string): (req: Request)
    ensures req.verb == Get && req.entity.None?
    ensures req.url == url + "?" + QueryString(Encrypt(env, command))
    // what is signed is exactly the query string that follows the `?` of the URL sent
    ensures FirstHeader(req.headers, SIGNATURE) == Some(Sign(env, req.url[|url| + 1..], nonce))
    ensures FirstHeader(req.headers, NONCE).None?
    ensures FirstHeader(req.headers, ACCESS_TOKEN).Some? <==> !Blank(env.whitespace, accessToken)
    ensures FirstHeader(req.headers, ACCESS_TOKEN).Some? ==> FirstHeader(req.headers, ACCESS_TOKEN).value == accessToken
    // nothing else is sent: one X-Signature, and one X-Access-Token when the token is not blank
    ensures |req.headers| == if Blank(env.whitespace, accessToken) then 1 else 2
    ensures forall h | h in req.headers :: Named(h, SIGNATURE) || Named(h, ACCESS_TOKEN)
  {
    var ciphertext := Encrypt(env, command);
    var queryString := QueryString(ciphertext);
    var signed := Sign(env, queryString, nonce);
    var tokenHeader := if !Blank(env.whitespace, accessToken) then [Header(ACCESS_TOKEN, accessToken)] else [];
    var req := Request(Get, url + "?" + queryString, [Header(SIGNATURE, signed)] + tokenHeader, None);
    assert req.url[|url| + 1..] == queryString;
    FirstHeaderCons(Header(SIGNATURE, signed), tokenHeader, ACCESS_TOKEN);
    FirstHeaderCons(Header(SIGNATURE, signed), tokenHeader, NONCE);
    FirstHeaderCons(Header(SIGNATURE, signed), tokenHeader, SIGNATURE);
    req
  }

  /** The JSON request body `{"ct": <ciphertext>}` of a POST. */
  function PostBody<C, T>(env: Env<C, T>, command: C): string {
    env.json.ctToJson(Encrypt(env, command))
  }

  /** The signed POST: the JSON body is the entity, its signature goes in X-Signature, the nonce
      in X-Nonce, and the token is attached whatever it holds. */
  function PostRequest<C, T>(env: Env<C, T>, url: string, command: C, accessToken: string, nonce: string): (req: Request)
    ensures req.verb == Post && req.url == url
    ensures req.entity == Some(env.enc.utf8Encode(PostBody(env, command)))
    // what is signed is exactly the text whose UTF-8 bytes are the entity
    ensures FirstHeader(req.headers, SIGNATURE) == Some(Sign(env, PostBody(env, command), nonce))
    ensures FirstHeader(req.headers, NONCE) == Some(nonce)
    ensures FirstHeader(req.headers, ACCESS_TOKEN) == Some(accessToken)
    ensures FirstHeader(req.headers, CONTENT_TYPE) == Some(APPLICATION_JSON)
    // nothing else is sent: exactly these four headers
    ensures |req.headers| == 4
    ensures forall h | h in req.headers ::
              Named(h, CONTENT_TYPE) || Named(h, SIGNATURE) || Named(h, NONCE) || Named(h, ACCESS_TOKEN)
  {
    var ciphertext := Encrypt(env, command);
    var requestBodyJson := env.json.ctToJson(ciphertext);
    var signed := Sign(env, requestBodyJson, nonce);
    var headers := [
      Header(CONTENT_TYPE, APPLICATION_JSON),
      Header(SIGNATURE, signed),
      Header(NONCE, nonce),
      Header(ACCESS_TOKEN, accessToken)
    ];
    PostHeaderLookups(headers);
    Request(Post, url, headers, Some(env.enc.utf8Encode(requestBodyJson)))
  }

  /** Looks up each of the four names in a POST header list, one header at a time. */
  lemma PostHeaderLookups(hs: seq<Header>)
    requires |hs| == 4
    requires hs[0].name == CONTENT_TYPE && hs[1].name == SIGNATURE && hs[2].name == NONCE && hs[3].name == ACCESS_TOKEN
    ensures FirstHeader(hs, CONTENT_TYPE) == Some(hs[0].value)
    ensures FirstHeader(hs, SIGNATURE) == Some(hs[1].value)
    ensures FirstHeader(hs, NONCE) == Some(hs[2].value)
    ensures FirstHeader(hs, ACCESS_TOKEN) == Some(hs[3].value)
  {
    assert hs == [hs[0]] + ([hs[1]] + ([hs[2]] + [hs[3]]));
    FirstHeaderCons(hs[3], [], ACCESS_TOKEN);
    FirstHeaderCons(hs[2], [hs[3]], ACCESS_TOKEN);
    FirstHeaderCons(hs[1], [hs[2]] + [hs[3]], ACCESS_TOKEN);
    FirstHeaderCons(hs[0], [hs[1]] + ([hs[2]] + [hs[3]]), ACCESS_TOKEN);
    FirstHeaderCons(hs[2], [hs[3]], NONCE);
    FirstHeaderCons(hs[1], [hs[2]] + [hs[3]], NONCE);
    FirstHeaderCons(hs[0], [hs[1]] + ([hs[2]] + [hs[3]]), NONCE);
    FirstHeaderCons(hs[1], [hs[2]] + [hs[3]], SIGNATURE);
    FirstHeaderCons(hs[0], [hs[1]] + ([hs[2]] + [hs[3]]), SIGNATURE);
    FirstHeaderCons(hs[0], [hs[1]] + ([hs[2]] + [hs[3]]), CONTENT_TYPE);
  }
}

=== FILE: response_pipeline.dfy ===
/** The fail-closed acceptance of a response: status, then headers, then the body's
    signature, and only then parsing (`isSuccess`, `analyzeHeader`, `verifySignature`,
    `analyzeBody`). */
module ResponsePipeline {
  import opened Outcomes
  import opened Text
  import opened Http
  import opened Protocol
  import opened Collaborators

  /** Only 200 and 204 count as a transport success. */
  predicate IsSuccess(status: int) {
    status == 200 || status == 204
  }

  /** Checks `signature` (standard Base64 text) over the UTF-8 bytes of content and nonce. */
  predicate VerifySignature<C, T>(env: Env<C, T>, content: string, nonce: string, signature: string) {
    env.cipher.verify(env.enc.utf8Encode(content), env.enc.utf8Encode(nonce), env.enc.base64Decode(signature))
  }

  /** Reads X-Signature, then X-Nonce; each must be present and not blank. */
  function AnalyzeHeader<C, T>(env: Env<C, T>, resp: Response): (r: Result<ResponseHeader, Error>)
    // the signature header is judged first, whatever X-Nonce holds
    ensures FirstHeader(resp.headers, SIGNATURE).None? ==> r == Failure(MissingSignature)
    ensures var s := FirstHeader(resp.headers, SIGNATURE);
            s.Some? && Blank(env.whitespace, s.value) ==> r == Failure(BlankSignature)
    ensures var s, n := FirstHeader(resp.headers, SIGNATURE), FirstHeader(resp.headers, NONCE);
            r == Failure(MissingNonce) <==>
              s.Some? && !Blank(env.whitespace, s.value) && (n.None? || Blank(env.whitespace, n.value))
    ensures var s, n := FirstHeader(resp.headers, SIGNATURE), FirstHeader(resp.headers, NONCE);
            r.Success? <==>
              s.Some? && !Blank(env.whitespace, s.value) && n.Some? && !Blank(env.whitespace, n.value)
    // on success, exactly the two values read
    ensures r.Success? ==>
              && Some(r.value.signature) == FirstHeader(resp.headers, SIGNATURE)
              && Some(r.value.nonce) == FirstHeader(resp.headers, NONCE)
    ensures r.Failure? ==> r.error in {MissingSignature, BlankSignature, MissingNonce}
  {
    var signature :- FirstHeader(resp.headers, SIGNATURE).OrError(MissingSignature);
    if Blank(env.whitespace, signature) then Failure(BlankSignature)
    else
      var nonce :- FirstHeader(resp.headers, NONCE).OrError(MissingNonce);
      if Blank(env.whitespace, nonce) then Failure(MissingNonce)
      else Success(ResponseHeader(signature, nonce))
  }

  /** The response body as text (`IOUtils.toString` with UTF-8). */
  function BodyText<C, T>(env: Env<C, T>, entity: Bytes): string {
    env.enc.utf8Decode(entity)
  }

  /** The whole response pipeline: a parsed ResponseBody, or the first check that failed. */
  function AnalyzeBody<C, T>(env: Env<C, T>, resp: Response): (r: Result<ResponseBody, Error>)
    // a bad status is reported whatever the headers and the body hold
    ensures !IsSuccess(resp.status) ==> r == Failure(BadStatus(resp.status))
    ensures var h := AnalyzeHeader(env, resp);
            IsSuccess(resp.status) && h.Failure? ==> r == Failure(h.error)
    ensures var h := AnalyzeHeader(env, resp);
            IsSuccess(resp.status) && h.Success? && resp.entity.None? ==> r == Failure(MissingEntity)
    ensures var h := AnalyzeHeader(env, resp);
            IsSuccess(resp.status) && h.Success? && resp.entity.Some? &&
            !VerifySignature(env, BodyText(env, resp.entity.value), h.value.nonce, h.value.signature) ==>
              r == Failure(VerifyFailed)
    // a verified body is handed to the parser, and its parse is the result
    ensures var h := AnalyzeHeader(env, resp);
            IsSuccess(resp.status) && h.Success? && resp.entity.Some? &&
            VerifySignature(env, BodyText(env, resp.entity.value), h.value.nonce, h.value.signature) ==>
              r == env.json.bodyFromJson(BodyText(env, resp.entity.value)).OrError(MalformedBody)
    // a parsed body was always verified first, and is the parse of exactly the verified text
    ensures var h := AnalyzeHeader(env, resp);
            r.Success? ==>
              && IsSuccess(resp.status)
              && h.Success?
              && resp.entity.Some?
              && VerifySignature(env, BodyText(env, resp.entity.value), h.value.nonce, h.value.signature)
              && env.json.bodyFromJson(BodyText(env, resp.entity.value)) == Some(r.value)
    ensures r == Failure(MalformedBody) ==>
              && resp.entity.Some?
              && env.json.bodyFromJson(BodyText(env, resp.entity.value)).None?
  {
    if IsSuccess(resp.status) then
      var header :- AnalyzeHeader(env, resp);
      var entity :- resp.entity.OrError(MissingEntity);
      var body := BodyText(env, entity);
      if VerifySignature(env, body, header.nonce, header.signature) then
        env.json.bodyFromJson(body).OrError(MalformedBody)
      else
        Failure(VerifyFailed)
    else
      Failure(BadStatus(resp.status))
  }
}

=== FILE: text.dfy ===
/** Character-level helpers: blankness of header values and header-name comparison. */
module Text {

  /** `StringUtils.isBlank`: the string is empty or made only of whitespace.
      The whitespace set is a parameter; the exact set used by the library is not modelled. */
  predicate Blank(whitespace: set<char>, s: string) {
    forall i :: 0 <= i < |s| ==> s[i] in whitespace
  }

  /** Lower-cases ASCII letters and leaves every other character alone. */
  function AsciiLower(c: char): char {
    if 'A' <= c <= 'Z' then (c as int + 32) as char else c
  }

  /** Header names are compared ignoring (ASCII) case, as `getFirstHeader` does. */
  predicate SameHeaderName(a: string, b: string) {
    |a| == |b| && forall i :: 0 <= i < |a| ==> AsciiLower(a[i]) == AsciiLower(b[i])
  }

  /** Position of the first occurrence of `c` in `s`, or -1 when there is none. */
  function IndexOf(s: string, c: char): (k: int)
    ensures -1 <= k < |s|
    ensures k >= 0 ==> s[k] == c
    ensures forall j :: 0 <= j < |s| && (k < 0 || j < k) ==> s[j] != c
  {
    if |s| == 0 then -1
    else if s[0] == c then 0
    else
      var k := IndexOf(s[1..], c);
      if k < 0 then -1 else k + 1
  }

  /** The first occurrence in `a + b` of a character that occurs in `a` is its first one in `a`. */
  lemma IndexOfInPrefix(a: string, b: string, c: char)
    requires c in a
    ensures IndexOf(a + b, c) == IndexOf(a, c)
  {
    var i := IndexOf(a, c);
    var k := IndexOf(a + b, c);
    assert (a + b)[i] == c;
    assert k <= i;
    assert a[k] == (a + b)[k];
  }

  /** A character absent from `a` is first found in `a + b` where it is first found in `b`. */
  lemma IndexOfAfterPrefix(a: string, b: string, c: char)
    requires c !in a
    ensures IndexOf(a + b, c) == if IndexOf(b, c) < 0 then -1 else |a| + IndexOf(b, c)
  {
    var i := IndexOf(b, c);
    var k := IndexOf(a + b, c);
    if k >= 0 {
      assert k >= |a|;
      assert b[k - |a|] == (a + b)[k];
    }
    if i >= 0 {
      assert (a + b)[|a| + i] == c;
      assert forall j :: 0 <= j < i ==> (a + b)[|a| + j] == b[j];
    }
  }

  /** A character of the URL-safe Base64 alphabet of Commons Codec (section 5 of RFC 4648),
      which `encodeBase64URLSafeString` writes without padding. */
  predicate UrlSafeBase64Char(c: char) {
    'A' <= c <= 'Z' || 'a' <= c <= 'z' || '0' <= c <= '9' || c == '-' || c == '_'
  }

  /** A text made only of characters of the URL-safe Base64 alphabet. */
  predicate UrlSafeBase64(s: string) {
    forall i :: 0 <= i < |s| ==> UrlSafeBase64Char(s[i])
  }
}
